=== FILE: README.md ===
# feur: the download logic of a manga-scraping browser extension, in Dafny

The extension reads a manga site (`sushiscan.net`) and saves volumes as `.cbz` archives. This
project models the decision logic under its DOM, `fetch` and messaging glue.

- **Retrying fetch** (`fetchAndRetry`). An attempt plus up to `retries` more, while `retries > 0`.
  A non-ok status is treated like a rejected `fetch`. It resolves only with an ok response.
- **The background `'download'` handler.**
  - It fetches every image link in order with a budget of 10 retries and never stops early.
  - Each image becomes an archive entry named after the text following the last `/` of its link.
  - It collects the errors and fails the whole batch with one joined message if any image failed.
  - It sends a progress message first, then one per successful image, carrying the counter
    *before* its increment.
- **The content manager.**
  - Deciding whether a page is a catalogue or a single volume.
  - Naming a volume's file.
  - Listing a catalogue's volume links, last anchor first.
  - Downloading one volume through the background handler.
  - Retrying a whole volume.
  - Walking a catalogue while logging, not propagating, each volume's failure.
- **The content script.**
  - Detecting the site from the hostname: the last enum value that occurs wins.
  - The downloadable-content check.
  - The probe loop, which stops at the first non-ok response.
  - The `'get_page_status'` answer and the `'download'` dispatch.

The model replaces I/O with parameters:

- **`Network = nat -> FetchOutcome`.** The `j`-th `fetch` call settles as `net(j)`: a delivered
  `Response` or a rejection message. `Response.ok` is a status of 200 to 299, as in the Fetch
  Standard.
- **`nets: nat -> Network`.** Image `i` of a batch sees `nets(i)`.
- **`channel: nat -> bool`.** The `k`-th progress send goes through when `channel(k)`. A refused
  send is only counted in `dropped`: it changes neither the handler's result nor the messages it
  sends.
- **`Dom.Document`.** It stands for a parsed page. `#chapterlist` and `#readerarea` are optional.
  The first holds the `href` of each `#chapterlist > ul a` and the second the `src` of each
  `#readerarea > noscript > p > img`, in document order; each attribute is optional too. Other
  anchors and images, including the images the reader area shows outside its `noscript` fallback,
  are not held.
- **`PageLoad = Result<Document>`.** This is how `fetch(url)` followed by `DOMParser` settles.
- **`VolumeTry`.** It is what one `downloadVolume` run meets: its page load; how
  `parseVolumeImagesLinks` settles on that page, as its image links or the message of the error it
  throws; and how the background answers the `'download'` request for those links.

One generic recursion, `Retry.RetryFrom`, models both `fetchAndRetry` and `downloadvolumeAndRetry`.
They are the same promise-retry pattern.

Modules follow the source files. `SupportedWebsites`, `DownloadUtils`, `Background`,
`ContentManager` and `ContentScript` model them. `Outcomes`, `Sequences`, `Strings`, `Retry` and
`Dom` are shared helpers.

Three details of the code shape the contracts:

- Progress messages are sent only for successful images. Their `current` values are
  `0, 0, 1, …, S-1` for `S` successes, because the counter is read before it is incremented.
- `retries = r` allows up to `r + 1` attempts: 4 by default and 11 for images.
- The exhausted-retries error is the last attempt's own error. That is `Failed to fetch <url>` for a
  non-ok status, or the rejection's message for a transport error.

## Model

| member | source | states |
|---|---|---|
| DownloadUtils.Attempt | src/modules/downloadUtils.ts:11-15 | one call resolves exactly when its response is ok, with that response; a non-ok response becomes `Failed to fetch <url>` and a rejection keeps its message |
| DownloadUtils.FetchAndRetry | src/modules/downloadUtils.ts:10-22 | between 1 and `max(retries,0)+1` fetch calls; every call before the last is not ok; a resolved response is ok and is the last call's response; a rejection comes after exactly `max(retries,0)+1` calls with the last call's error |
| DownloadUtils.FetchStopsAtFirstOk | src/modules/downloadUtils.ts:11-19 | when the first `k` calls are not ok and call `k+1` is, within budget, exactly `k+1` calls are made and call `k+1`'s response is returned |
| DownloadUtils.FetchExhausted | src/modules/downloadUtils.ts:16-21 | when every call in budget fails, exactly `max(retries,0)+1` calls are made and the error is the last one's: `Failed to fetch <url>` for a non-ok status, the rejection message otherwise |
| DownloadUtils.NonOkRetriedLikeNetworkError | src/modules/downloadUtils.ts:12-18 | two networks that agree on which calls are ok (and on the ok responses) give the same call count and the same success, however the failing calls fail |
| DownloadUtils.FetchSucceedsIffSomeCallOk | src/modules/downloadUtils.ts:11-21 | the fetch resolves exactly when some call within budget is ok |
| DownloadUtils.DefaultRetriesAllowFourAttempts | src/modules/downloadUtils.ts:10 | the default `retries = 3` allows at most 4 calls, and takes all 4 when the first 3 fail |
| Retry.RetryFrom | src/modules/downloadUtils.ts:16-21 | the retry recursion runs the operation 1 to `max(retries,0)+1` times, settles as the last run, every earlier run rejected, and a rejection uses the whole budget |
| Retry.StopsAtFirstSuccess | src/modules/downloadUtils.ts:17-18 | a success after `k` failures, within budget, settles the recursion with that success after `k+1` runs |
| Retry.ExhaustsBudget | src/modules/downloadUtils.ts:19-20 | when every run in budget rejects, the recursion makes `max(retries,0)+1` runs and rethrows the last run's error |
| Retry.SucceedsIffSomeRunSucceeds | src/modules/ContentManager.ts:156-163 | a retried operation resolves exactly when some run within budget resolves |
| Retry.SameSuccessesRetryAlike | src/modules/downloadUtils.ts:16-18 | the recursion only looks at whether a run rejected: runs that agree on successes give the same run count and result |
| Sequences.Reverse | src/modules/ContentManager.ts:105 | `.reverse()`: same length, element `i` is element `n-1-i` |
| Sequences.ReverseReverse | src/modules/ContentManager.ts:105 | reversing twice gives the sequence back |
| Sequences.Present | src/modules/ContentManager.ts:105 | the `filter` of missing `href`s: no longer than the input, and a string is kept exactly when it is present in the input |
| Sequences.PresentAppend | src/modules/ContentManager.ts:105 | filtering distributes over concatenation, so document order is kept |
| Sequences.PresentAllSome | src/modules/ContentManager.ts:104-105 | when every anchor has an `href`, the filter keeps each, in place |
| Sequences.LastSatisfying | src/content_script.ts:6-11 | the `forEach` that overwrites a variable on each match: the start value when nothing matches, otherwise a matching element with no match after it |
| Strings.IncludesIffOccurs | src/content_script.ts:8 | `includes` holds exactly when the substring occurs at some position |
| Strings.IncludesOccurrence | src/content_script.ts:8 | `includes` finds every occurrence of the substring |
| Strings.LastIndexOf | src/background.ts:25 | `lastIndexOf`: -1 or an index holding the character, with no later occurrence |
| Strings.LastIndexOfFound | src/background.ts:25 | `lastIndexOf` is non-negative exactly when the character occurs |
| Strings.AfterLast | src/background.ts:25 | `substring(lastIndexOf(c)+1)` holds no `c` and is a suffix of the string |
| Strings.AfterLastBoundary | src/background.ts:25 | without a `c` the whole string is kept, otherwise a `c` immediately precedes the result |
| Strings.AfterLastOfSuffix | src/background.ts:25 | the text after the last `c` of `a + c + b` is `b` when `b` holds no `c` |
| Strings.Split | src/modules/ContentManager.ts:145 | `split('/')` gives at least one piece and no piece holds the separator |
| Strings.JoinSplit | src/modules/ContentManager.ts:145 | joining the pieces of a split with the separator gives the string back |
| Strings.SplitLast | src/modules/ContentManager.ts:145 | the last piece of a split is the text after the last separator |
| Strings.AfterLastOfJoin | src/modules/ContentManager.ts:145 | joining separator-free pieces leaves the last piece after the last separator |
| Strings.JoinEnds | src/background.ts:34 | `join` of no parts is empty; otherwise the result starts with the first part and ends with the last |
| Strings.JoinLast | src/background.ts:34 | `join` peels off its last part with one separator |
| Strings.JoinIncludesEach | src/background.ts:34 | a joined string includes every part |
| Strings.IncludesSuffix | src/background.ts:34 | what the joined part includes, the header-prefixed message includes too |
| SupportedWebsites.SupportedWebsite.Value | src/modules/supported_websites.ts:1-4 | each member's string value is non-empty, and `sushiscan.net` and `unsupported` name exactly `SushiScan` and `Unsupported` |
| SupportedWebsites.AllWebsitesEnumeratesEachOnce | src/modules/supported_websites.ts:1-4 | enumerating the enum yields both members once, `SushiScan` first |
| SupportedWebsites.ValueInjective | src/modules/supported_websites.ts:1-4 | the string values `sushiscan.net` and `unsupported` are distinct, so a value names its member |
| Background.FileName | src/background.ts:25 | an entry name holds no `/` and ends its link |
| Background.FileNameAfterLastSlash | src/background.ts:25 | the name is the whole link without `/`, otherwise the text right after the last `/` |
| Background.ImageDownload | src/background.ts:22-26 | a stored image is named after its link's last segment and holds the body of the first ok call within budget; a failed image carries the last call's error |
| Background.Downloads | src/background.ts:20-31 | one outcome per link |
| Background.DownloadsAt | src/background.ts:20-31 | outcome `i` is the retried download of link `i` on its own network |
| Background.Errors | src/background.ts:30 | no more errors than outcomes |
| Background.ErrorsAppend | src/background.ts:20-30 | collecting errors distributes over concatenation, so the messages keep link order |
| Background.Entries | src/background.ts:26 | no more entries than outcomes |
| Background.ErrorsAndEntries | src/background.ts:20-33 | every outcome is an entry or an error, and there are no errors exactly when every image succeeded |
| Background.EntriesWhenAllSucceed | src/background.ts:35-37 | with no failure, the archive holds each outcome's entry, in order |
| Background.ErrorsListsEveryFailure | src/background.ts:30 | every failed image's message is among the collected errors |
| Background.FailedSends | src/background.ts:27-28 | no more failed progress sends than sends |
| Background.StartConsistent | src/background.ts:16-19 | before the loop: no call made, nothing collected, only the `{0, total}` message sent, counted as dropped when refused |
| Background.StepKeepsConsistent | src/background.ts:21-30 | an iteration keeps one progress message per stored entry, numbered from 0, and one dropped count per refused send |
| Background.StepAppends | src/background.ts:21-30 | an iteration appends one `fetchAndRetry` call for its link, then the image's entry on success or its error otherwise, sending a message only for an entry |
| Background.LoopFetchesEveryLink | src/background.ts:20-22 | the loop calls `fetchAndRetry` once per link, in link order, whatever earlier links did |
| Background.LoopCollectsOutcomes | src/background.ts:20-31 | the loop's errors and entries are exactly those of the per-link outcomes, and the counter equals the number of entries |
| Background.LoopProgress | src/background.ts:16-28 | after the initial `{0, total}` message, one message per success with `current = k` for the `k`-th success; the dropped sends are exactly those the channel refused |
| Background.HandleDownload | src/background.ts:12-38 | one `fetchAndRetry(link, 10)` per link in order; the result is the batch result; progress is `0, 0, 1, …, S-1` out of `N`; a success sends `N+1` messages; failed sends change nothing else |
| Background.ImageFailsIffEveryCallFails | src/background.ts:22 | an image fails exactly when none of its `max(retries,0)+1` calls is ok, which for the handler's budget of 10 is 11 calls |
| Background.BatchResult | src/background.ts:33-38 | a settled archive has one entry per link; a failure's message starts with `Failed to download some images :\n` |
| Background.BatchFailsIffSomeImageFails | src/background.ts:33-38 | the batch fails if and only if some image fails |
| Background.BatchArchiveInLinkOrder | src/background.ts:25-26 | a successful batch holds one added entry per link, in link order, named after the link's last segment, with the fetched body |
| Background.BatchFailureMentionsEveryError | src/background.ts:34 | a failed batch's message starts with `Failed to download some images :\n` and includes every failed image's message |
| ContentManager.GetContentManager | src/modules/ContentManager.ts:41-48 | a manager exactly for `SushiScan`; `Unsupported website` otherwise |
| ContentManager.GetDownloadType | src/modules/ContentManager.ts:55-65 | a rejected fetch rejects as is; `AllVolumes` exactly when `#chapterlist` is present; `SingleVolume` exactly when only `#readerarea` is; `Unsupported page` otherwise |
| ContentManager.DownloadTypeKnownIffElementPresent | src/modules/ContentManager.ts:58-63 | a page has a type exactly when it has either element, and a page with both is a catalogue |
| ContentManager.ParseVolumesLinks | src/modules/ContentManager.ts:103-106 | no more links than anchors, and a string is a link exactly when some anchor has it as `href` |
| ContentManager.VolumesLinksReverseDocumentOrder | src/modules/ContentManager.ts:103-106 | the links reversed are the present `href`s in document order; with every `href` present, link `i` is anchor `n-1-i`'s |
| ContentManager.WithoutTrailingSlash | src/modules/ContentManager.ts:143-144 | `url.endsWith('/')` is `Strings.EndsWith`; a url without a trailing `/` is kept; otherwise exactly one `/` is removed from its end |
| ContentManager.LastSegment | src/modules/ContentManager.ts:145 | the last piece of `split('/')` is the text after the last `/` |
| ContentManager.ParseVolumeTitle | src/modules/ContentManager.ts:142-146 | the title ends in `.cbz`, the part before has no `/`, and it is the text after the last `/` once one trailing `/` is dropped |
| ContentManager.TrailingSlashIgnored | src/modules/ContentManager.ts:143-145 | `title(u + "/") == title(u)` for `u` not ending in `/` |
| ContentManager.OnlyOneTrailingSlashDropped | src/modules/ContentManager.ts:143-145 | only one trailing `/` is dropped: a url ending in `//` gives `.cbz` |
| ContentManager.ChapterTitleFromLastSegment | src/modules/ContentManager.ts:142-146 | `base/name/` gives `name.cbz` for a `/`-free name (so `https://site/manga/chapter-5/` gives `chapter-5.cbz`) |
| ContentManager.DownloadVolume | src/modules/ContentManager.ts:67-81 | a volume is saved exactly when its page loads, its image links parse and the background answers with an archive, under a `.cbz` name; the saved name is the parsed volume title; a page-fetch rejection and an error thrown by the link parsing pass through without a prefix, and a background failure's message is `Failed to download volume : ` followed by the background's error |
| ContentManager.DownloadVolumeThroughHandler | src/modules/ContentManager.ts:70-78 | when the page's image links parse to `links` and the background answers through its handler, a volume is saved exactly when every image downloads, under its title, with one entry per image |
| ContentManager.DownloadVolumeAndRetry | src/modules/ContentManager.ts:156-163 | between 1 and `max(retries,0)+1` runs, every earlier run failed, the result is the last run's, and a failure uses the whole budget and rethrows the last error |
| ContentManager.VolumeRetryStopsAtFirstSave | src/modules/ContentManager.ts:157-162 | a save after `k` failed runs, within budget, ends the retries after `k+1` runs with that save |
| ContentManager.DefaultVolumeRetriesAllowFourRuns | src/modules/ContentManager.ts:156 | the default budget of 3 allows at most 4 runs, and takes all 4 when the first 3 fail |
| ContentManager.VolumeDownloads | src/modules/ContentManager.ts:88-90 | one retried download per volume link, in link order, each on its own runs |
| ContentManager.DownloadAllVolumes | src/modules/ContentManager.ts:83-92 | a rejected catalogue fetch rejects as is; otherwise the call resolves with one outcome per parsed volume link, in order |
| ContentManager.VolumeOutcomeIndependent | src/modules/ContentManager.ts:88-90 | a volume's outcome depends only on its own runs, so another volume's failure never changes it |
| ContentManager.EveryVolumeAttempted | src/modules/ContentManager.ts:86-90 | every parsed volume link gets its retried download with the default budget |
| ContentScript.LastMatching | src/content_script.ts:7-11 | the `forEach` keeps its start value when nothing matches, and otherwise the last matching member |
| ContentScript.GetWebsite | src/content_script.ts:4-13 | `SushiScan` exactly when `sushiscan.net` occurs in the hostname and `unsupported` does not |
| ContentScript.GetWebsiteKeepsLastMatch | src/content_script.ts:6-12 | no match gives `Unsupported`; otherwise the result is a member no earlier in the enum than any match |
| ContentScript.DoesPageHaveDownloadableContent | src/content_script.ts:15-26 | never for `Unsupported`; on the supported site a `catalogue` url (`IsCataloguePage`, the `includes('catalogue')` of lines 18 and 31, characterised by `Strings.IncludesIffOccurs`) needs `#chapterlist` and any other needs `#readerarea` |
| ContentScript.DownloadableContentHasDownloadType | src/content_script.ts:17-21 | a page with downloadable content has a download type, and a catalogue page is downloaded as all volumes, assuming the re-fetched page parses to the same document as the live DOM |
| ContentScript.ManagerExactlyWhereContentPossible | src/content_script.ts:15-26 | the `switch` of the content check and that of `getContentManager` agree: a site gets a manager exactly when some page of it can offer downloadable content |
| ContentScript.ProbeTargets | src/content_script.ts:31-42 | a catalogue page without `#chapterlist`, or another page without `#readerarea`, has nothing to probe; any target means the page has downloadable content |
| ContentScript.ProbeFrom | src/content_script.ts:33-39 | `true` exactly when every remaining probe is ok; otherwise it stops at the first non-ok probe, answering `false` for a status and rejecting with the message for a transport error |
| ContentScript.IsContentDownloadable | src/content_script.ts:28-56 | `false` without a fetch for `Unsupported`; on the supported site `true` exactly when every probed target is ok, stopping at the first that is not |
| ContentScript.ProbeStopsAtFirstNotOk | src/content_script.ts:43-47 | after `k` ok probes, a non-ok status at probe `k` answers `false` after exactly `k+1` fetches |
| ContentScript.NothingToProbeIsDownloadable | src/content_script.ts:31-39 | an empty target list answers `true` without fetching |
| ContentScript.GetPageStatus | src/content_script.ts:62-63 | the status is sent exactly when the probe resolves, and a rejected probe sends no status; it carries the detected site, its content check and the probe's answer |
| ContentScript.UnsupportedSiteOffersNothing | src/content_script.ts:22-24 | on an unsupported site the status is always `{Unsupported, false, false}` |
| ContentScript.EmptyCatalogueCanDownloadWithoutContent | src/content_script.ts:18-19 | a catalogue page without `#chapterlist` reports no downloadable content yet `canDownload = true` |
| ContentScript.DispatchDownload | src/content_script.ts:65-88 | no manager exactly on an unsupported site; all volumes exactly when the type page has `#chapterlist`; a single volume, downloaded once without retries, exactly when it only has `#readerarea` |

## Left out

- `parseVolumeImagesLinks` (src/modules/ContentManager.ts:115-133) is not modelled. It runs a regex and `JSON.parse` over a site script, which is foreign parsing with no stated contract. How it settles enters as the parameter `VolumeTry.images`: the image links, or the message of what it throws. It throws when `JSON.parse` meets a payload cut at its first `)` by the `[^)]+` capture, or when the parsed object has no `sources`. Such an error rejects `downloadVolume` without the volume prefix, and `downloadvolumeAndRetry` retries it like any other failure. The background's answer to the links enters as `VolumeTry.reply`.
- JSZip's `generateAsync` is not modelled, and neither is `volume.file` replacing an entry of the same name (src/background.ts:26). The archive is the list of entries added, in order. Two links with the same last segment give two entries here, where the zip keeps only the later one.
- FileSaver's `saveAs` is file I/O. The model returns the `SavedFile` value instead of writing it.
- `chrome.runtime` messaging is left out: the async listener plumbing, `sendResponse` and the popup's progress consumer. A `'download'` answer is a `Result`, and a progress send is a `channel` bit.
- `console.log`, `console.warn` and `console.error` are left out. A caught error appears only as the returned value (`dropped`, `NoManager`, `NoDownloadType`, a failed `VolumeOutcome`).
- `response.text()` and `response.blob()` are taken to succeed. The blob is the response body.
- The `options` argument of `fetchAndRetry` is left out, because the handler always passes `{}`.
- Promise scheduling is not modelled. Every loop here is sequential, as in the source's `for … of` with `await`.
- The popup (src/popup.ts) is left out, because it is UI rendering.
- The `!response.ok` check at src/background.ts:23-24 is left out of `Background.Step`. `fetchAndRetry` only resolves with ok responses, so it never fires (`DownloadUtils.FetchAndRetry` ensures this).
- The `default` branches of the `switch` statements on enums are left out, because the Dafny datatypes are closed. This covers src/modules/ContentManager.ts:46, src/content_script.ts:23, 53 and 83-84. Messages of other types (src/content_script.ts:89-90) do nothing and are not modelled.
- ContentScript.ProbeFrom: records how many probes were fetched, not the attribute values fetched. A missing attribute (passed through the `!` assertion) is one more probe whose outcome comes from the network.
- ContentScript.GetWebsite: the hostname and `href` of `window.location` are parameters, and the three `getWebsite()` calls of the status handler are one call, because they read the same location.
- ContentManager.DownloadVolume: the page fetch's status is not checked, as in the source. Any delivered page is parsed, and its parsed form is the given `Document`.
- Background.Errors: its contract bounds the length only. Its contents are stated by `Background.ErrorsAndEntries`, `Background.ErrorsListsEveryFailure` and `Background.LoopCollectsOutcomes`.
- Background.Entries: its contract bounds the length only. Its contents are stated by `Background.EntriesWhenAllSucceed` and `Background.BatchArchiveInLinkOrder`.
- Background.FailedSends: its contract bounds the count only. `Background.LoopProgress` ties it to the sends the loop makes.
- Background.Downloads: its contract states the length only. Its elements are stated by `Background.DownloadsAt`.

=== FILE: background.dfy ===
/**
 * The background script's `'download'` handler: fetch every image link in order, collect the
 * failures without stopping, report progress, and answer with an archive or one aggregated error.
 */
module Background {
  import opened Outcomes
  import opened Strings
  import opened Retry
  import opened DownloadUtils
  import opened Sequences

  /** The `retries` passed to `fetchAndRetry` for each image. */
  const ImageRetries := 10

  /** The start of the aggregated error message. */
  const BatchFailureHeader := "Failed to download some images :\n"

  /** What separates the per-image messages in the aggregated error. */
  const BatchFailureSeparator := ",\n "

  /** One file of the archive. */
  datatype Entry = Entry(name: string, content: Blob)

  /** The zip being built, as its entries in insertion order. */
  type Archive = seq<Entry>

  /** The payload of a progress message. */
  datatype ProgressEvent = ProgressEvent(current: int, total: int)

  /** One call of `fetchAndRetry` made by the handler, with the number of `fetch` calls it made. */
  datatype FetchCall = FetchCall(url: string, attempts: nat)

  /**
   * What one run of the handler does: the `fetchAndRetry` calls in the order made, how the handler
   * settles, the progress messages it sends, and how many of those sends were refused.
   */
  datatype BatchRun = BatchRun(fetches: seq<FetchCall>, result: Result<Archive>, events: seq<ProgressEvent>, dropped: nat)

  /** `imageLink.substring(imageLink.lastIndexOf('/') + 1)`: the entry name of an image. */
  function FileName(link: string): (name: string)
    ensures '/' !in name
    ensures EndsWith(link, name)
  {
    AfterLast(link, '/')
  }

  /** An image name is the whole link when it has no `/`, and otherwise the text right after its last `/`. */
  lemma FileNameAfterLastSlash(link: string)
    ensures '/' !in link ==> FileName(link) == link
    ensures '/' in link ==> |FileName(link)| < |link| && link[|link| - |FileName(link)| - 1] == '/'
  {
    AfterLastBoundary(link, '/');
  }

  /**
   * What one iteration of the loop produces for `link`, whose `fetch` calls see the network `net`;
   * the handler passes `retries = ImageRetries`.
   */
  function ImageDownload(link: string, net: Network, retries: int): (r: Result<Entry>)
    ensures r.Success? ==> r.value.name == FileName(link)
    ensures r.Success? ==>
              exists j :: 0 <= j <= Budget(retries) && IsOk(net(j)) && r.value.content == net(j).response.body &&
                          forall k :: 0 <= k < j ==> !IsOk(net(k))
    ensures r.Failure? ==> Attempt(link, net(Budget(retries))) == Failure(r.error)
  {
    var fetched := FetchAndRetry(link, net, retries);
    match fetched.result
    case Failure(e) => Failure(e)
    case Success(response) =>
      var j := fetched.attempts - 1;
      assert IsOk(net(j)) && response.body == net(j).response.body;
      Success(Entry(FileName(link), response.body))
  }

  /** The iterations' outcomes, link `i` seeing the network `nets(i)`. */
  function Downloads(links: seq<string>, nets: nat -> Network, retries: int): (outs: seq<Result<Entry>>)
    ensures |outs| == |links|
    decreases |links|
  {
    if |links| == 0 then []
    else
      var n := |links| - 1;
      Downloads(links[..n], nets, retries) + [ImageDownload(links[n], nets(n), retries)]
  }

  /** Outcome `i` is link `i`'s download. */
  lemma {:induction false} DownloadsAt(links: seq<string>, nets: nat -> Network, retries: int, i: nat)
    requires i < |links|
    ensures Downloads(links, nets, retries)[i] == ImageDownload(links[i], nets(i), retries)
    decreases |links|
  {
    var n := |links| - 1;
    if i < n {
      DownloadsAt(links[..n], nets, retries, i);
      assert links[..n][i] == links[i];
    }
  }

  /** The errors among `outs`, in order (`downloadErrors`). */
  function Errors(outs: seq<Result<Entry>>): (errs: seq<string>)
    ensures |errs| <= |outs|
  {
    if |outs| == 0 then []
    else
      var last := outs[|outs| - 1];
      Errors(outs[..|outs| - 1]) + (if last.Failure? then [last.error] else [])
  }

  /** Collecting errors distributes over concatenation: the messages of `a` come first, in order. */
  lemma {:induction false} ErrorsAppend(a: seq<Result<Entry>>, b: seq<Result<Entry>>)
    ensures Errors(a + b) == Errors(a) + Errors(b)
    decreases |b|
  {
    if |b| == 0 {
      assert a + b == a;
    } else {
      var n := |b| - 1;
      assert (a + b)[..|a + b| - 1] == a + b[..n];
      ErrorsAppend(a, b[..n]);
    }
  }

  /** The entries among `outs`, in order (the files added to the zip). */
  function Entries(outs: seq<Result<Entry>>): (es: seq<Entry>)
    ensures |es| <= |outs|
  {
    if |outs| == 0 then []
    else
      var last := outs[|outs| - 1];
      Entries(outs[..|outs| - 1]) + (if last.Success? then [last.value] else [])
  }

  /** Every outcome is an error or an entry, and there are no errors exactly when every outcome succeeded. */
  lemma {:induction false} ErrorsAndEntries(outs: seq<Result<Entry>>)
    ensures |Entries(outs)| + |Errors(outs)| == |outs|
    ensures |Errors(outs)| == 0 <==> forall i :: 0 <= i < |outs| ==> outs[i].Success?
    decreases |outs|
  {
    if |outs| > 0 {
      var front := outs[..|outs| - 1];
      ErrorsAndEntries(front);
      assert forall i :: 0 <= i < |front| ==> front[i] == outs[i];
    }
  }

  /** When nothing failed, the entries are the values of `outs`, one each, in order. */
  lemma {:induction false} EntriesWhenAllSucceed(outs: seq<Result<Entry>>)
    requires forall i :: 0 <= i < |outs| ==> outs[i].Success?
    ensures |Entries(outs)| == |outs|
    ensures forall i :: 0 <= i < |outs| ==> Entries(outs)[i] == outs[i].value
    decreases |outs|
  {
    if |outs| > 0 {
      var front := outs[..|outs| - 1];
      assert forall i :: 0 <= i < |front| ==> front[i] == outs[i];
      EntriesWhenAllSucceed(front);
    }
  }

  /** Every failure of `outs` has its message among `Errors(outs)`. */
  lemma {:induction false} ErrorsListsEveryFailure(outs: seq<Result<Entry>>, i: nat)
    requires i < |outs| && outs[i].Failure?
    ensures outs[i].error in Errors(outs)
    decreases |outs|
  {
    if i < |outs| - 1 {
      var front := outs[..|outs| - 1];
      assert front[i] == outs[i];
      ErrorsListsEveryFailure(front, i);
    }
  }

  /** How the handler settles for `links`: the archive, or the aggregated error when any image failed. */
  function BatchResult(links: seq<string>, nets: nat -> Network, retries: int): (r: Result<Archive>)
    ensures r.Success? ==> |r.value| == |links|
    ensures r.Failure? ==> StartsWith(r.error, BatchFailureHeader)
  {
    var outs := Downloads(links, nets, retries);
    var errors := Errors(outs);
    ErrorsAndEntries(outs);
    if |errors| > 0 then
      var message := BatchFailureHeader + Join(errors, BatchFailureSeparator);
      assert message[..|BatchFailureHeader|] == BatchFailureHeader;
      Failure(message)
    else Success(Entries(outs))
  }

  /** The number of the first `n` sends that were refused, where send `k` goes through when `channel(k)`. */
  function FailedSends(channel: nat -> bool, n: nat): (count: nat)
    ensures count <= n
  {
    if n == 0 then 0 else FailedSends(channel, n - 1) + (if channel(n - 1) then 0 else 1)
  }

  /** The handler's local state between iterations of its loop. */
  datatype LoopState = LoopState(
    fetches: seq<FetchCall>,
    entries: seq<Entry>,
    errors: seq<string>,
    progress: nat,
    events: seq<ProgressEvent>,
    dropped: nat)

  /**
   * What the handler keeps true between iterations: one progress message per stored entry after the
   * initial one, numbered from 0 out of `total`, and one dropped message per refused send.
   */
  predicate Consistent(st: LoopState, total: int, channel: nat -> bool) {
    && st.progress == |st.entries|
    && |st.events| == st.progress + 1
    && st.events[0] == ProgressEvent(0, total)
    && (forall k :: 0 <= k < st.progress ==> st.events[k + 1] == ProgressEvent(k, total))
    && st.dropped == FailedSends(channel, |st.events|)
  }

  /** The state before the loop, once the initial `{current: 0, total}` message has been sent. */
  function Start(total: int, channel: nat -> bool): (st: LoopState) {
    LoopState([], [], [], 0, [ProgressEvent(0, total)], if channel(0) then 0 else 1)
  }

  /** The loop starts consistent, with no call made and nothing collected. */
  lemma StartConsistent(total: int, channel: nat -> bool)
    ensures Consistent(Start(total, channel), total, channel)
    ensures var st := Start(total, channel); st.fetches == [] && st.entries == [] && st.errors == []
  {
  }

  /**
   * One iteration for `link`. The `!response.ok` check after the call is left out: the fetch only
   * resolves with ok responses, so it never fires. The progress message carries `progress` before
   * the increment (`progress++`).
   */
  function Step(st: LoopState, link: string, net: Network, channel: nat -> bool, total: int, retries: int): (next: LoopState)
  {
    var fetched := FetchAndRetry(link, net, retries);
    var fetches := st.fetches + [FetchCall(link, fetched.attempts)];
    match fetched.result
    case Failure(e) => st.(fetches := fetches, errors := st.errors + [e])
    case Success(response) =>
      st.(fetches := fetches,
          entries := st.entries + [Entry(FileName(link), response.body)],
          progress := st.progress + 1,
          events := st.events + [ProgressEvent(st.progress, total)],
          dropped := st.dropped + if channel(|st.events|) then 0 else 1)
  }

  /** The state after the loop has run over `links`, for a batch of `total` links fetched with `retries`. */
  function Loop(links: seq<string>, nets: nat -> Network, channel: nat -> bool, total: int, retries: int): (st: LoopState)
    decreases |links|
  {
    if |links| == 0 then Start(total, channel)
    else
      var n := |links| - 1;
      Step(Loop(links[..n], nets, channel, total, retries), links[n], nets(n), channel, total, retries)
  }

  /** An iteration keeps the progress bookkeeping consistent. */
  lemma StepKeepsConsistent(st: LoopState, link: string, net: Network, channel: nat -> bool, total: int, retries: int)
    requires Consistent(st, total, channel)
    ensures Consistent(Step(st, link, net, channel, total, retries), total, channel)
  {
  }

  /**
   * An iteration appends one `fetchAndRetry` call for `link`, then stores the image as an entry
   * when its download succeeds and its error otherwise, sending a progress message only for an entry.
   */
  lemma StepAppends(st: LoopState, link: string, net: Network, channel: nat -> bool, total: int, retries: int)
    ensures var next := Step(st, link, net, channel, total, retries);
            next.fetches == st.fetches + [FetchCall(link, FetchAndRetry(link, net, retries).attempts)]
    ensures var next := Step(st, link, net, channel, total, retries);
            match ImageDownload(link, net, retries)
            case Success(entry) => next.entries == st.entries + [entry] && next.errors == st.errors
            case Failure(e) => next.errors == st.errors + [e] && next.entries == st.entries && next.events == st.events
  {
  }

  /** The last iteration appends link `n`'s `fetchAndRetry` call to the calls made before it. */
  lemma LoopStepFetches(links: seq<string>, nets: nat -> Network, channel: nat -> bool, total: int, retries: int)
    requires |links| > 0
    ensures var n := |links| - 1;
            Loop(links, nets, channel, total, retries).fetches ==
              Loop(links[..n], nets, channel, total, retries).fetches +
              [FetchCall(links[n], FetchAndRetry(links[n], nets(n), retries).attempts)]
  {
    var n := |links| - 1;
    var before := Loop(links[..n], nets, channel, total, retries);
    assert Loop(links, nets, channel, total, retries) == Step(before, links[n], nets(n), channel, total, retries);
  }

  /** The last iteration appends link `n`'s error or its entry to what came before. */
  lemma LoopStepOutcome(links: seq<string>, nets: nat -> Network, channel: nat -> bool, total: int, retries: int)
    requires |links| > 0
    ensures var n := |links| - 1;
            var before := Loop(links[..n], nets, channel, total, retries);
            var after := Loop(links, nets, channel, total, retries);
            var d := ImageDownload(links[n], nets(n), retries);
            && after.errors == before.errors + (if d.Failure? then [d.error] else [])
            && after.entries == before.entries + (if d.Success? then [d.value] else [])
  {
    var n := |links| - 1;
    var before := Loop(links[..n], nets, channel, total, retries);
    assert Loop(links, nets, channel, total, retries) == Step(before, links[n], nets(n), channel, total, retries);
  }

  /** The `fetchAndRetry` call the handler makes for link `i`, whose calls see `nets(i)`. */
  function CallOf(nets: nat -> Network, retries: int): (call: (nat, string) -> FetchCall) {
    (i: nat, link: string) => FetchCall(link, FetchAndRetry(link, nets(i), retries).attempts)
  }

  /** The loop's calls are the links' calls, in link order. */
  lemma {:induction false} LoopFetchesMapped(links: seq<string>, nets: nat -> Network, channel: nat -> bool, total: int, retries: int)
    ensures Loop(links, nets, channel, total, retries).fetches == MapIndexed(CallOf(nets, retries), links)
    decreases |links|
  {
    if |links| > 0 {
      var n := |links| - 1;
      LoopFetchesMapped(links[..n], nets, channel, total, retries);
      LoopStepFetches(links, nets, channel, total, retries);
    }
  }

  /** The loop makes one `fetchAndRetry` call per link, in link order, with the image retry budget. */
  lemma LoopFetchesEveryLink(links: seq<string>, nets: nat -> Network, channel: nat -> bool, total: int, retries: int)
    ensures |Loop(links, nets, channel, total, retries).fetches| == |links|
    ensures forall i :: 0 <= i < |links| ==>
              Loop(links, nets, channel, total, retries).fetches[i] ==
                FetchCall(links[i], FetchAndRetry(links[i], nets(i), retries).attempts)
  {
    LoopFetchesMapped(links, nets, channel, total, retries);
  }

  /** The loop collects exactly the errors and the entries of the reference outcomes. */
  lemma {:induction false} LoopCollectsOutcomes(links: seq<string>, nets: nat -> Network, channel: nat -> bool, total: int, retries: int)
    ensures Loop(links, nets, channel, total, retries).errors == Errors(Downloads(links, nets, retries))
    ensures Loop(links, nets, channel, total, retries).entries == Entries(Downloads(links, nets, retries))
    ensures Loop(links, nets, channel, total, retries).progress == |Loop(links, nets, channel, total, retries).entries|
    decreases |links|
  {
    if |links| > 0 {
      var n := |links| - 1;
      LoopCollectsOutcomes(links[..n], nets, channel, total, retries);
      LoopStepOutcome(links, nets, channel, total, retries);
      var outs := Downloads(links, nets, retries);
      assert outs[..n] == Downloads(links[..n], nets, retries);
      assert outs[n] == ImageDownload(links[n], nets(n), retries);
    }
  }

  /** The loop sends one progress message per successful link, counting from 0, after the initial one. */
  lemma {:induction false} LoopProgress(links: seq<string>, nets: nat -> Network, channel: nat -> bool, total: int, retries: int)
    ensures Consistent(Loop(links, nets, channel, total, retries), total, channel)
    decreases |links|
  {
    if |links| == 0 {
      StartConsistent(total, channel);
    } else {
      var n := |links| - 1;
      LoopProgress(links[..n], nets, channel, total, retries);
      StepKeepsConsistent(Loop(links[..n], nets, channel, total, retries), links[n], nets(n), channel, total, retries);
    }
  }

  /**
   * The handler's body. Image `i`'s `fetch` calls see `nets(i)`; the `k`-th progress send goes
   * through when `channel(k)` and is refused otherwise. Neither the result nor the messages sent depend
   * on `channel`.
   */
  function HandleDownload(links: seq<string>, nets: nat -> Network, channel: nat -> bool): (run: BatchRun)
    ensures |run.fetches| == |links|
    ensures forall i :: 0 <= i < |links| ==>
              run.fetches[i] == FetchCall(links[i], FetchAndRetry(links[i], nets(i), ImageRetries).attempts)
    ensures run.result == BatchResult(links, nets, ImageRetries)
    ensures var successes := |Entries(Downloads(links, nets, ImageRetries))|;
            && |run.events| == successes + 1
            && run.events[0] == ProgressEvent(0, |links|)
            && forall k :: 0 <= k < successes ==> run.events[k + 1] == ProgressEvent(k, |links|)
    ensures run.result.Success? ==> |run.events| == |links| + 1
    ensures run.dropped == FailedSends(channel, |run.events|)
  {
    var st := Loop(links, nets, channel, |links|, ImageRetries);
    LoopFetchesEveryLink(links, nets, channel, |links|, ImageRetries);
    LoopCollectsOutcomes(links, nets, channel, |links|, ImageRetries);
    LoopProgress(links, nets, channel, |links|, ImageRetries);
    ErrorsAndEntries(Downloads(links, nets, ImageRetries));
    var result :=
      if |st.errors| > 0 then Failure(BatchFailureHeader + Join(st.errors, BatchFailureSeparator))
      else Success(st.entries);
    BatchRun(st.fetches, result, st.events, st.dropped)
  }

  /** An image fails exactly when none of its `Budget(retries) + 1` calls is ok; the handler allows 11. */
  lemma ImageFailsIffEveryCallFails(link: string, net: Network, retries: int)
    ensures ImageDownload(link, net, retries).Failure? <==> forall j :: 0 <= j <= Budget(retries) ==> !IsOk(net(j))
    ensures FetchAndRetry(link, net, retries).attempts <= Budget(retries) + 1
    ensures Budget(ImageRetries) + 1 == 11
  {
    FetchSucceedsIffSomeCallOk(link, net, retries);
  }

  /** The batch fails if and only if at least one image fails. */
  lemma BatchFailsIffSomeImageFails(links: seq<string>, nets: nat -> Network, retries: int)
    ensures BatchResult(links, nets, retries).Failure? <==>
            exists i :: 0 <= i < |links| && ImageDownload(links[i], nets(i), retries).Failure?
  {
    var outs := Downloads(links, nets, retries);
    ErrorsAndEntries(outs);
    if |Errors(outs)| > 0 {
      var i :| 0 <= i < |outs| && outs[i].Failure?;
      DownloadsAt(links, nets, retries, i);
    } else {
      forall i | 0 <= i < |links|
        ensures ImageDownload(links[i], nets(i), retries).Success?
      {
        DownloadsAt(links, nets, retries, i);
      }
    }
  }

  /**
   * A successful batch holds one entry per link, in link order, named after the text following the
   * link's last `/`, with the body of the response fetched for it.
   */
  lemma BatchArchiveInLinkOrder(links: seq<string>, nets: nat -> Network, retries: int)
    requires BatchResult(links, nets, retries).Success?
    ensures |BatchResult(links, nets, retries).value| == |links|
    ensures forall i :: 0 <= i < |links| ==>
              && FetchAndRetry(links[i], nets(i), retries).result.Success?
              && BatchResult(links, nets, retries).value[i] ==
                   Entry(FileName(links[i]), FetchAndRetry(links[i], nets(i), retries).result.value.body)
  {
    var outs := Downloads(links, nets, retries);
    ErrorsAndEntries(outs);
    EntriesWhenAllSucceed(outs);
    forall i | 0 <= i < |links|
      ensures FetchAndRetry(links[i], nets(i), retries).result.Success?
      ensures Entries(outs)[i] ==
                Entry(FileName(links[i]), FetchAndRetry(links[i], nets(i), retries).result.value.body)
    {
      DownloadsAt(links, nets, retries, i);
    }
  }

  /**
   * A failed batch carries no archive: its message starts with the header and contains the error of
   * every image that failed.
   */
  lemma BatchFailureMentionsEveryError(links: seq<string>, nets: nat -> Network, retries: int)
    requires BatchResult(links, nets, retries).Failure?
    ensures StartsWith(BatchResult(links, nets, retries).error, BatchFailureHeader)
    ensures forall i :: 0 <= i < |links| && ImageDownload(links[i], nets(i), retries).Failure? ==>
              Includes(BatchResult(links, nets, retries).error, ImageDownload(links[i], nets(i), retries).error)
  {
    var outs := Downloads(links, nets, retries);
    var errors := Errors(outs);
    var joined := Join(errors, BatchFailureSeparator);
    var message := BatchFailureHeader + joined;
    assert BatchResult(links, nets, retries).error == message;
    assert message[..|BatchFailureHeader|] == BatchFailureHeader;
    forall i | 0 <= i < |links| && ImageDownload(links[i], nets(i), retries).Failure?
      ensures Includes(message, ImageDownload(links[i], nets(i), retries).error)
    {
      DownloadsAt(links, nets, retries, i);
      var e := outs[i].error;
      ErrorsListsEveryFailure(outs, i);
      var k :| 0 <= k < |errors| && errors[k] == e;
      JoinIncludesEach(errors, BatchFailureSeparator, k);
      IncludesSuffix(BatchFailureHeader, joined, e);
    }
  }
}

=== FILE: content_manager.dfy ===
/**
 * The content manager of the one supported site: deciding what a page offers, naming a volume's
 * archive, listing a catalogue's volumes, and downloading one volume (with retries) or all of them.
 * Every `fetch(url)` of a page is given as its outcome: the parsed document, or the rejection message.
 */
module ContentManager {
  import opened Outcomes
  import opened Strings
  import opened Sequences
  import opened Retry
  import opened Dom
  import opened SupportedWebsites
  import opened DownloadUtils
  import Background

  /** The content managers there are: one per supported site. */
  datatype Manager = SushiScanManager

  /** The message `getContentManager` throws for a site without a manager. */
  const UnsupportedWebsiteMessage := "Unsupported website"

  /** The message `getDownloadType` throws for a page that is neither a catalogue nor a volume. */
  const UnsupportedPageMessage := "Unsupported page"

  /** What `downloadVolume` puts before the background's error message. */
  const VolumeFailurePrefix := "Failed to download volume : "

  /** The extension of a saved volume. */
  const VolumeExtension := ".cbz"

  /** The default `retries` of `downloadvolumeAndRetry`. */
  const DefaultVolumeRetries := 3

  /**
   * How `fetch(url)` followed by `DOMParser` settles: the document parsed from the response text
   * (whatever the response status), or the message the fetch rejected with.
   */
  type PageLoad = Result<Document>

  /** A manager for `SushiScan`; `Unsupported` throws. */
  function GetContentManager(website: SupportedWebsite): (r: Result<Manager>)
    ensures r.Success? <==> website == SushiScan
    ensures r.Failure? ==> r.error == UnsupportedWebsiteMessage
  {
    match website
    case SushiScan => Success(SushiScanManager)
    case Unsupported => Failure(UnsupportedWebsiteMessage)
  }

  /**
   * The download type of the page `load` fetched: a chapter list makes it a catalogue, whatever else
   * the page holds; otherwise a reader area makes it a single volume; otherwise it is unsupported.
   */
  function GetDownloadType(load: PageLoad): (r: Result<DownloadType>)
    ensures load.Failure? ==> r == Failure(load.error)
    ensures load.Success? ==> (r == Success(AllVolumes) <==> load.value.HasChapterList())
    ensures load.Success? ==>
              (r == Success(SingleVolume) <==> !load.value.HasChapterList() && load.value.HasReaderArea())
    ensures load.Success? && r.Failure? ==> r.error == UnsupportedPageMessage
  {
    match load
    case Failure(e) => Failure(e)
    case Success(doc) =>
      if doc.HasChapterList() then Success(AllVolumes)
      else if doc.HasReaderArea() then Success(SingleVolume)
      else Failure(UnsupportedPageMessage)
  }

  /** A loaded page has a download type exactly when it has a chapter list or a reader area. */
  lemma DownloadTypeKnownIffElementPresent(doc: Document)
    ensures GetDownloadType(Success(doc)).Success? <==> doc.HasChapterList() || doc.HasReaderArea()
    ensures doc.HasChapterList() && doc.HasReaderArea() ==> GetDownloadType(Success(doc)) == Success(AllVolumes)
  {
  }

  /** The `href`s of the catalogue's chapter anchors, missing ones dropped, last anchor first. */
  function ParseVolumesLinks(doc: Document): (links: seq<string>)
    ensures |links| <= |doc.ChapterAnchors()|
    ensures forall v :: v in links <==> Some(v) in doc.ChapterAnchors()
  {
    var present := Present(doc.ChapterAnchors());
    var links := Reverse(present);
    assert forall v :: v in links <==> v in present by {
      forall v | v in present
        ensures v in links
      {
        var i :| 0 <= i < |present| && present[i] == v;
        assert links[|present| - 1 - i] == v;
      }
    }
    links
  }

  /**
   * Reversing the volume links gives the present `href`s in document order; when every anchor has an
   * `href`, link `i` is that of anchor `n - 1 - i`.
   */
  lemma VolumesLinksReverseDocumentOrder(doc: Document)
    ensures Reverse(ParseVolumesLinks(doc)) == Present(doc.ChapterAnchors())
    ensures (forall i :: 0 <= i < |doc.ChapterAnchors()| ==> doc.ChapterAnchors()[i].Some?) ==>
              var anchors := doc.ChapterAnchors();
              && |ParseVolumesLinks(doc)| == |anchors|
              && forall i :: 0 <= i < |anchors| ==> ParseVolumesLinks(doc)[i] == anchors[|anchors| - 1 - i].value
  {
    var anchors := doc.ChapterAnchors();
    ReverseReverse(Present(anchors));
    if forall i :: 0 <= i < |anchors| ==> anchors[i].Some? {
      PresentAllSome(anchors);
    }
  }

  /** `url` without one trailing `/`, if it has one. */
  function WithoutTrailingSlash(url: string): (path: string)
    ensures !EndsWith(url, "/") ==> path == url
    ensures EndsWith(url, "/") ==> path + "/" == url
  {
    if EndsWith(url, "/") then url[..|url| - 1] else url
  }

  /**
   * The last piece of `path.split('/')`, which is the text after the last `/` (the whole path when
   * there is none).
   */
  function LastSegment(path: string): (segment: string)
    ensures segment == AfterLast(path, '/')
  {
    var parts := Split(path, '/');
    SplitLast(path, '/');
    parts[|parts| - 1]
  }

  /** The file name of the volume at `url`: its last path segment, plus `.cbz`. */
  function ParseVolumeTitle(url: string): (title: string)
    ensures EndsWith(title, VolumeExtension)
    ensures '/' !in title[..|title| - |VolumeExtension|]
    ensures title == AfterLast(WithoutTrailingSlash(url), '/') + VolumeExtension
  {
    var segment := LastSegment(WithoutTrailingSlash(url));
    var title := segment + VolumeExtension;
    assert title[..|title| - |VolumeExtension|] == segment;
    title
  }

  /** One trailing `/` does not change the title. */
  lemma TrailingSlashIgnored(url: string)
    requires !EndsWith(url, "/")
    ensures ParseVolumeTitle(url + "/") == ParseVolumeTitle(url)
  {
    var u := url + "/";
    assert u[|u| - 1..] == "/";
    assert u[..|u| - 1] == url;
  }

  /** Only one trailing `/` is dropped: a url ending in `//` names a volume with an empty name. */
  lemma OnlyOneTrailingSlashDropped(url: string)
    ensures ParseVolumeTitle(url + "//") == VolumeExtension
  {
    var u := url + "//";
    assert u[|u| - 1..] == "/";
    assert WithoutTrailingSlash(u) == url + ['/'] + "";
    AfterLastOfSuffix(url, '/', "");
  }

  /**
   * A chapter url with one trailing `/` is named after its last segment: for instance
   * `https://site/manga/chapter-5/` gives `chapter-5.cbz`.
   */
  lemma ChapterTitleFromLastSegment(base: string, name: string)
    requires '/' !in name
    ensures ParseVolumeTitle(base + "/" + name + "/") == name + VolumeExtension
  {
    var path := base + ['/'] + name;
    var url := path + "/";
    assert base + "/" + name + "/" == url;
    assert url[|url| - 1..] == "/";
    assert WithoutTrailingSlash(url) == path;
    AfterLastOfSuffix(base, '/', name);
  }

  /** A file handed to `FileSaver.saveAs`. */
  datatype SavedFile = SavedFile(name: string, archive: Background.Archive)

  /**
   * What one `downloadVolume(url)` call meets: how its `fetch(url)` settles; how
   * `parseVolumeImagesLinks` settles on the loaded page (its image links, or the message of the
   * error it throws); and how the background answers the `'download'` request for those links (an
   * archive, or the handler's error message).
   */
  datatype VolumeTry = VolumeTry(load: PageLoad, images: Result<seq<string>>, reply: Result<Background.Archive>)

  /**
   * `downloadVolume(url)`: a rejected page fetch rejects as is; so does an error thrown while the
   * image links are parsed, since that happens before the `try`; a failed background download
   * rejects with the volume prefix; otherwise the archive is saved under the volume's title.
   */
  function DownloadVolume(url: string, t: VolumeTry): (r: Result<SavedFile>)
    ensures r.Success? <==> t.load.Success? && t.images.Success? && t.reply.Success?
    ensures r.Success? ==> r.value.archive == t.reply.value && EndsWith(r.value.name, VolumeExtension)
    ensures r.Success? ==> r.value.name == ParseVolumeTitle(url)
    ensures t.load.Failure? ==> r.error == t.load.error
    ensures t.load.Success? && t.images.Failure? ==> r.error == t.images.error
    ensures t.load.Success? && t.images.Success? && t.reply.Failure? ==> StartsWith(r.error, VolumeFailurePrefix)
    ensures t.load.Success? && t.images.Success? && t.reply.Failure? ==> r.error == VolumeFailurePrefix + t.reply.error
  {
    match t.load
    case Failure(e) => Failure(e)
    case Success(_) =>
      match t.images
      case Failure(e) => Failure(e)
      case Success(_) =>
        match t.reply
        case Failure(e) =>
          var message := VolumeFailurePrefix + e;
          assert message[..|VolumeFailurePrefix|] == VolumeFailurePrefix;
          Failure(message)
        case Success(zip) => Success(SavedFile(ParseVolumeTitle(url), zip))
  }

  /**
   * With the background answering through its handler, a volume is saved exactly when every one of
   * its images downloads, and the saved archive has one entry per image link.
   */
  lemma DownloadVolumeThroughHandler(url: string, doc: Document, links: seq<string>, nets: nat -> Network, retries: int)
    ensures var r := DownloadVolume(url, VolumeTry(Success(doc), Success(links), Background.BatchResult(links, nets, retries)));
            && (r.Success? <==> forall i :: 0 <= i < |links| ==> Background.ImageDownload(links[i], nets(i), retries).Success?)
            && (r.Success? ==> r.value.name == ParseVolumeTitle(url) && |r.value.archive| == |links|)
  {
    Background.BatchFailsIffSomeImageFails(links, nets, retries);
    if Background.BatchResult(links, nets, retries).Success? {
      Background.BatchArchiveInLinkOrder(links, nets, retries);
    }
  }

  /**
   * `downloadvolumeAndRetry(url, retries)`, where run `j` of `downloadVolume(url)` meets `tries(j)`:
   * at most `Budget(retries) + 1` runs, stopping at the first saved volume; when every run fails, the
   * last run's error.
   */
  function DownloadVolumeAndRetry(url: string, tries: nat -> VolumeTry, retries: int): (r: Attempted<SavedFile>)
    ensures 1 <= r.attempts <= Budget(retries) + 1
    ensures forall j :: 0 <= j < r.attempts - 1 ==> DownloadVolume(url, tries(j)).Failure?
    ensures r.result == DownloadVolume(url, tries(r.attempts - 1))
    ensures r.result.Failure? ==> r.attempts == Budget(retries) + 1 && r.result == DownloadVolume(url, tries(Budget(retries)))
  {
    var runs := (j: nat) => DownloadVolume(url, tries(j));
    var r := RetryFrom(runs, retries, 0);
    forall j | 0 <= j < r.attempts - 1
      ensures DownloadVolume(url, tries(j)).Failure?
    {
      assert runs(j).Failure?;
    }
    r
  }

  /** Runs `0..k-1` fail and run `k` saves, within budget: exactly `k + 1` runs, saving run `k`'s file. */
  lemma VolumeRetryStopsAtFirstSave(url: string, tries: nat -> VolumeTry, retries: int, k: nat)
    requires k <= Budget(retries)
    requires forall j :: 0 <= j < k ==> DownloadVolume(url, tries(j)).Failure?
    requires DownloadVolume(url, tries(k)).Success?
    ensures DownloadVolumeAndRetry(url, tries, retries) == Attempted(DownloadVolume(url, tries(k)), k + 1)
  {
    StopsAtFirstSuccess((j: nat) => DownloadVolume(url, tries(j)), retries, 0, k);
  }

  /** The default budget allows four runs, and takes all four when the first three fail. */
  lemma DefaultVolumeRetriesAllowFourRuns(url: string, tries: nat -> VolumeTry)
    ensures DownloadVolumeAndRetry(url, tries, DefaultVolumeRetries).attempts <= 4
    ensures (forall j :: 0 <= j < 3 ==> DownloadVolume(url, tries(j)).Failure?) ==>
              DownloadVolumeAndRetry(url, tries, DefaultVolumeRetries).attempts == 4
  {
  }

  /** One volume of a catalogue: its link and how its retried download settled (a failure is only logged). */
  datatype VolumeOutcome = VolumeOutcome(link: string, download: Attempted<SavedFile>)

  /** What the catalogue loop records for link `i`, whose runs meet `volumes(i)`. */
  function VolumeOf(volumes: nat -> nat -> VolumeTry, retries: int): (volume: (nat, string) -> VolumeOutcome) {
    (i: nat, link: string) => VolumeOutcome(link, DownloadVolumeAndRetry(link, volumes(i), retries))
  }

  /** The catalogue loop over `links`, volume `i`'s runs meeting `volumes(i)`. */
  function VolumeDownloads(links: seq<string>, volumes: nat -> nat -> VolumeTry, retries: int): (outs: seq<VolumeOutcome>)
    ensures |outs| == |links|
    ensures forall i :: 0 <= i < |links| ==>
              outs[i] == VolumeOutcome(links[i], DownloadVolumeAndRetry(links[i], volumes(i), retries))
  {
    MapIndexed(VolumeOf(volumes, retries), links)
  }

  /**
   * `downloadAllVolumes(url)`: a rejected catalogue fetch rejects as is; otherwise every volume link is
   * downloaded with retries, in link order, and the call resolves whatever the volumes did.
   */
  function DownloadAllVolumes(load: PageLoad, volumes: nat -> nat -> VolumeTry): (r: Result<seq<VolumeOutcome>>)
    ensures load.Failure? ==> r == Failure(load.error)
    ensures load.Success? ==> r.Success? && |r.value| == |ParseVolumesLinks(load.value)|
    ensures load.Success? ==> forall i :: 0 <= i < |r.value| ==>
              r.value[i].link == ParseVolumesLinks(load.value)[i]
  {
    match load
    case Failure(e) => Failure(e)
    case Success(doc) => Success(VolumeDownloads(ParseVolumesLinks(doc), volumes, DefaultVolumeRetries))
  }

  /**
   * A volume's outcome depends on its own runs only: whatever the other volumes meet (failures
   * included), volume `i` settles the same way.
   */
  lemma VolumeOutcomeIndependent(links: seq<string>, volumes1: nat -> nat -> VolumeTry, volumes2: nat -> nat -> VolumeTry, retries: int, i: nat)
    requires i < |links|
    requires volumes1(i) == volumes2(i)
    ensures VolumeDownloads(links, volumes1, retries)[i] == VolumeDownloads(links, volumes2, retries)[i]
  {
  }

  /**
   * Every volume link of a loaded catalogue gets its own retried download, even when earlier volumes
   * failed every run.
   */
  lemma EveryVolumeAttempted(doc: Document, volumes: nat -> nat -> VolumeTry, i: nat)
    requires i < |ParseVolumesLinks(doc)|
    ensures var link := ParseVolumesLinks(doc)[i];
            DownloadAllVolumes(Success(doc), volumes).value[i] ==
              VolumeOutcome(link, DownloadVolumeAndRetry(link, volumes(i), DefaultVolumeRetries))
  {
  }
}

=== FILE: content_script.dfy ===
/**
 * The content script: which supported site the tab shows, whether the page holds something to
 * download, whether every resource it links answers ok, and what the `'get_page_status'` and
 * `'download'` messages make it do. `window.location` is given as its `hostname` and `href`, the
 * page's DOM as a `Document`, and the probes' `fetch` calls as a `Network`.
 */
module ContentScript {
  import opened Outcomes
  import opened Strings
  import opened Sequences
  import opened SupportedWebsites
  import opened Dom
  import opened DownloadUtils
  import opened ContentManager

  /** The text whose presence in `href` marks a catalogue page. */
  const CatalogueMarker := "catalogue"

  /** `hostname.includes(w)`, the enum member standing for its string value. */
  predicate Matches(hostname: string, w: SupportedWebsite) {
    Includes(hostname, w.Value())
  }

  /**
   * The `forEach` of `getWebsite` over `websites`, with `current` the value assigned so far: every
   * matching member is assigned in turn, so the last matching one is kept.
   */
  function LastMatching(hostname: string, websites: seq<SupportedWebsite>, current: SupportedWebsite): (w: SupportedWebsite)
    ensures w == current || w in websites
    ensures (forall i :: 0 <= i < |websites| ==> !Matches(hostname, websites[i])) ==> w == current
    ensures (exists i :: 0 <= i < |websites| && Matches(hostname, websites[i])) ==>
              exists i :: && 0 <= i < |websites| && websites[i] == w && Matches(hostname, w)
                          && forall j :: i < j < |websites| ==> !Matches(hostname, websites[j])
  {
    LastSatisfying(w => Matches(hostname, w), websites, current)
  }

  /** `getWebsite()`: the last enum member whose value occurs in the hostname, `Unsupported` when none does. */
  function GetWebsite(hostname: string): (w: SupportedWebsite)
    ensures w == SushiScan <==> Matches(hostname, SushiScan) && !Matches(hostname, Unsupported)
  {
    LastMatching(hostname, AllWebsites, Unsupported)
  }

  /**
   * `getWebsite` keeps the member latest in enumeration order among those that occur in the hostname,
   * and `Unsupported` when none does.
   */
  lemma GetWebsiteKeepsLastMatch(hostname: string)
    ensures (forall w :: w in AllWebsites ==> !Matches(hostname, w)) ==> GetWebsite(hostname) == Unsupported
    ensures forall i :: 0 <= i < |AllWebsites| && Matches(hostname, AllWebsites[i]) ==>
              exists k :: i <= k < |AllWebsites| && GetWebsite(hostname) == AllWebsites[k]
  {
    var w := GetWebsite(hostname);
    forall i | 0 <= i < |AllWebsites| && Matches(hostname, AllWebsites[i])
      ensures exists k :: i <= k < |AllWebsites| && w == AllWebsites[k]
    {
      var k :| && 0 <= k < |AllWebsites| && AllWebsites[k] == w && Matches(hostname, w)
               && forall j :: k < j < |AllWebsites| ==> !Matches(hostname, AllWebsites[j]);
      assert i <= k;
    }
  }

  /** The current page is a catalogue. */
  predicate IsCataloguePage(href: string) {
    Includes(href, CatalogueMarker)
  }

  /**
   * `doesPageHasDownloadableContent(website)`: never for an unsupported site; on the supported site, a
   * catalogue page needs `#chapterlist` and any other page `#readerarea`.
   */
  function DoesPageHaveDownloadableContent(website: SupportedWebsite, href: string, doc: Document): (b: bool)
    ensures website == Unsupported ==> !b
    ensures b <==> website == SushiScan &&
                   (if IsCataloguePage(href) then doc.HasChapterList() else doc.HasReaderArea())
  {
    match website
    case SushiScan => if IsCataloguePage(href) then doc.HasChapterList() else doc.HasReaderArea()
    case Unsupported => false
  }

  /**
   * A page with downloadable content always gets a download type from its own document, and a
   * catalogue page is then downloaded as all volumes. The check reads the live DOM and
   * `getDownloadType` re-fetches the page; one `doc` stands for both, so this holds when the
   * fetched page parses to the document the tab shows.
   */
  lemma DownloadableContentHasDownloadType(website: SupportedWebsite, href: string, doc: Document)
    requires DoesPageHaveDownloadableContent(website, href, doc)
    ensures GetDownloadType(Success(doc)).Success?
    ensures IsCataloguePage(href) ==> GetDownloadType(Success(doc)) == Success(AllVolumes)
  {
  }

  /**
   * The two switches on the site agree: a site gets a content manager exactly when some page of it
   * can offer downloadable content.
   */
  lemma ManagerExactlyWhereContentPossible(website: SupportedWebsite)
    ensures GetContentManager(website).Success? <==>
            exists href, doc :: DoesPageHaveDownloadableContent(website, href, doc)
  {
    if website == SushiScan {
      var doc := Document(None, Some([]));
      assert !IsCataloguePage("");
      assert DoesPageHaveDownloadableContent(SushiScan, "", doc);
    }
  }

  /** What `isContentDownloadable` settles with, and how many `fetch` calls it made. */
  datatype Probe = Probe(result: Result<bool>, fetches: nat)

  /** The attributes probed on the supported site: the chapter `href`s of a catalogue, else the image `src`s. */
  function ProbeTargets(href: string, doc: Document): (targets: seq<Option<string>>)
    ensures IsCataloguePage(href) && !doc.HasChapterList() ==> targets == []
    ensures !IsCataloguePage(href) && !doc.HasReaderArea() ==> targets == []
    ensures |targets| > 0 ==> DoesPageHaveDownloadableContent(SushiScan, href, doc)
  {
    if IsCataloguePage(href) then doc.ChapterAnchors() else doc.ReaderImages()
  }

  /**
   * The probing loop from target `j` of `count`, fetch `k` settling as `net(k)`: a rejected fetch rejects
   * the whole call, a non-ok response answers `false`, and running out of targets answers `true`.
   */
  function ProbeFrom(count: nat, net: Network, j: nat): (p: Probe)
    requires j <= count
    ensures j <= p.fetches <= count
    ensures p.result == Success(true) <==> p.fetches == count && forall k :: j <= k < count ==> IsOk(net(k))
    ensures p.result != Success(true) ==>
              && j < p.fetches
              && !IsOk(net(p.fetches - 1))
              && forall k :: j <= k < p.fetches - 1 ==> IsOk(net(k))
    ensures p.result.Failure? <==> p.result != Success(true) && net(p.fetches - 1).NetworkError?
    ensures p.result.Failure? ==> p.result.error == net(p.fetches - 1).message
    decreases count - j
  {
    if j == count then Probe(Success(true), j)
    else
      match net(j)
      case NetworkError(message) => Probe(Failure(message), j + 1)
      case Delivered(response) =>
        if !response.Ok() then Probe(Success(false), j + 1)
        else ProbeFrom(count, net, j + 1)
  }

  /**
   * `isContentDownloadable(website)`: `false` without probing for an unsupported site; on the supported
   * site, one `fetch` per target in document order, up to and including the first that is not ok.
   */
  function IsContentDownloadable(website: SupportedWebsite, href: string, doc: Document, net: Network): (p: Probe)
    ensures website == Unsupported ==> p == Probe(Success(false), 0)
    ensures website == SushiScan ==>
              var n := |ProbeTargets(href, doc)|;
              && p.fetches <= n
              && (p.result == Success(true) <==> forall k :: 0 <= k < n ==> IsOk(net(k)))
              && (p.result == Success(true) ==> p.fetches == n)
              && (p.result != Success(true) ==>
                    0 < p.fetches && !IsOk(net(p.fetches - 1)) && forall k :: 0 <= k < p.fetches - 1 ==> IsOk(net(k)))
  {
    match website
    case SushiScan => ProbeFrom(|ProbeTargets(href, doc)|, net, 0)
    case Unsupported => Probe(Success(false), 0)
  }

  /** When the first `k` probes answer ok and probe `k` answers a non-ok status, exactly `k + 1` fetches are made. */
  lemma {:induction false} ProbeStopsAtFirstNotOk(count: nat, net: Network, j: nat, k: nat)
    requires j <= k < count
    requires forall m :: j <= m < k ==> IsOk(net(m))
    requires net(k).Delivered? && !net(k).response.Ok()
    ensures ProbeFrom(count, net, j) == Probe(Success(false), k + 1)
    decreases k - j
  {
    if j < k {
      assert IsOk(net(j));
      ProbeStopsAtFirstNotOk(count, net, j + 1, k);
    }
  }

  /** A page with nothing to probe is downloadable without a single fetch. */
  lemma NothingToProbeIsDownloadable(href: string, doc: Document, net: Network)
    requires |ProbeTargets(href, doc)| == 0
    ensures IsContentDownloadable(SushiScan, href, doc, net) == Probe(Success(true), 0)
  {
  }

  /**
   * The `'get_page_status'` answer: the detected site, its content check and its probe. A probe whose
   * fetch rejects makes the handler reject, and no status is sent.
   */
  function GetPageStatus(hostname: string, href: string, doc: Document, net: Network): (r: Result<PageStatus>)
    ensures var w := GetWebsite(hostname);
            r.Success? <==> IsContentDownloadable(w, href, doc, net).result.Success?
    ensures r.Success? ==>
              var w := GetWebsite(hostname);
              && r.value.website == w
              && r.value.hasDownloadableContent == DoesPageHaveDownloadableContent(w, href, doc)
              && r.value.canDownload == IsContentDownloadable(w, href, doc, net).result.value
  {
    var w := GetWebsite(hostname);
    match IsContentDownloadable(w, href, doc, net).result
    case Failure(e) => Failure(e)
    case Success(can) => Success(PageStatus(w, DoesPageHaveDownloadableContent(w, href, doc), can))
  }

  /** On a site that is not supported the status is always sent, and offers nothing. */
  lemma UnsupportedSiteOffersNothing(hostname: string, href: string, doc: Document, net: Network)
    requires !Matches(hostname, SushiScan) || Matches(hostname, Unsupported)
    ensures GetPageStatus(hostname, href, doc, net) == Success(PageStatus(Unsupported, false, false))
  {
  }

  /**
   * A catalogue page without `#chapterlist` has no downloadable content, yet probes nothing and so
   * reports that it can be downloaded.
   */
  lemma EmptyCatalogueCanDownloadWithoutContent(hostname: string, href: string, doc: Document, net: Network)
    requires Matches(hostname, SushiScan) && !Matches(hostname, Unsupported)
    requires IsCataloguePage(href) && !doc.HasChapterList()
    ensures GetPageStatus(hostname, href, doc, net) == Success(PageStatus(SushiScan, false, true))
  {
    NothingToProbeIsDownloadable(href, doc, net);
  }

  /** What the `'download'` message leads to; every rejection on the way is only logged. */
  datatype DownloadDispatch =
    | NoManager(error: string)
    | NoDownloadType(error: string)
    | AllVolumesDownload(catalogue: Result<seq<VolumeOutcome>>)
    | SingleVolumeDownload(volume: Result<SavedFile>)

  /**
   * The `'download'` case. `typeLoad` is how the `getDownloadType` fetch of `href` settles; a catalogue
   * is then fetched again as `catalogueLoad` with volume `i`'s runs meeting `volumes(i)`, and a single
   * volume is downloaded once, without retries, meeting `single`.
   */
  function DispatchDownload(hostname: string, href: string, typeLoad: PageLoad, catalogueLoad: PageLoad,
                            volumes: nat -> nat -> VolumeTry, single: VolumeTry): (d: DownloadDispatch)
    ensures d.NoManager? <==> GetWebsite(hostname) == Unsupported
    ensures d.NoManager? ==> d.error == UnsupportedWebsiteMessage
    ensures d.AllVolumesDownload? <==>
              GetWebsite(hostname) == SushiScan && typeLoad.Success? && typeLoad.value.HasChapterList()
    ensures d.SingleVolumeDownload? <==>
              && GetWebsite(hostname) == SushiScan && typeLoad.Success?
              && !typeLoad.value.HasChapterList() && typeLoad.value.HasReaderArea()
    ensures d.AllVolumesDownload? ==> d.catalogue == DownloadAllVolumes(catalogueLoad, volumes)
    ensures d.SingleVolumeDownload? ==> d.volume == DownloadVolume(href, single)
  {
    match GetContentManager(GetWebsite(hostname))
    case Failure(e) => NoManager(e)
    case Success(_) =>
      match GetDownloadType(typeLoad)
      case Failure(e) => NoDownloadType(e)
      case Success(AllVolumes) => AllVolumesDownload(DownloadAllVolumes(catalogueLoad, volumes))
      case Success(SingleVolume) => SingleVolumeDownload(DownloadVolume(href, single))
  }
}

=== FILE: dom.dfy ===
/** The parts of an HTML document the extension queries, with `querySelector` results as plain values. */
module Dom {
  import opened Outcomes

  /**
   * `chapterList` is `None` when `#chapterlist` is absent, and otherwise holds the `href` attribute
   * (`None` for a missing attribute) of every `#chapterlist > ul a`, in document order.
   * `readerArea` is `None` when `#readerarea` is absent, and otherwise holds the `src` attribute of
   * every `#readerarea > noscript > p > img`, in document order.
   */
  datatype Document = Document(
    chapterList: Option<seq<Option<string>>>,
    readerArea: Option<seq<Option<string>>>)
  {
    /** `querySelector('#chapterlist')` is neither `null` nor `undefined`. */
    predicate HasChapterList() { chapterList.Some? }

    /** `querySelector('#readerarea')` is neither `null` nor `undefined`. */
    predicate HasReaderArea() { readerArea.Some? }

    /** `querySelectorAll('#chapterlist > ul a')`, as `href` values: empty when the list is absent. */
    function ChapterAnchors(): (hrefs: seq<Option<string>>) {
      if chapterList.Some? then chapterList.value else []
    }

    /** `querySelectorAll('#readerarea > noscript > p > img')`, as `src` values: empty when the area is absent. */
    function ReaderImages(): (srcs: seq<Option<string>>) {
      if readerArea.Some? then readerArea.value else []
    }
  }
}

=== FILE: download_utils.dfy ===
/** `fetchAndRetry`: a `fetch` that treats a non-ok status as a failure and retries a bounded number of times. */
module DownloadUtils {
  import opened Outcomes
  import opened Retry

  newtype byte = x: int | 0 <= x < 256

  /** The bytes of a response body (`response.blob()`). */
  type Blob = seq<byte>

  /** A `Response`, reduced to what the extension reads from it. */
  datatype Response = Response(status: int, body: Blob) {
    /** `response.ok`: the status is in the range 200 to 299. */
    predicate Ok() { 200 <= status <= 299 }
  }

  /** How one call to `fetch` settles: with a response of any status, or rejected by a network error. */
  datatype FetchOutcome = Delivered(response: Response) | NetworkError(message: string)

  /** The network as the successive `fetch` calls of one operation see it: call number `j` settles as `net(j)`. */
  type Network = nat -> FetchOutcome

  /** A call that delivered a response whose `ok` is true. */
  predicate IsOk(o: FetchOutcome) {
    o.Delivered? && o.response.Ok()
  }

  /** `retries` when the caller leaves it out. */
  const DefaultRetries := 3

  /** The message of the error thrown for a response whose `ok` is false. */
  function FailedFetchMessage(url: string): (message: string) {
    "Failed to fetch " + url
  }

  /** One attempt: the `then` callback turns a non-ok response into the same kind of rejection as a network error. */
  function Attempt(url: string, o: FetchOutcome): (r: Result<Response>)
    ensures r.Success? <==> IsOk(o)
    ensures r.Success? ==> r.value == o.response && r.value.Ok()
    ensures o.Delivered? && !IsOk(o) ==> r == Failure(FailedFetchMessage(url))
    ensures o.NetworkError? ==> r == Failure(o.message)
  {
    match o
    case NetworkError(message) => Failure(message)
    case Delivered(response) =>
      if response.Ok() then Success(response) else Failure(FailedFetchMessage(url))
  }

  /** `fetchAndRetry(url, options, retries)` over the network `net`. */
  function FetchAndRetry(url: string, net: Network, retries: int): (r: Attempted<Response>)
    ensures 1 <= r.attempts <= Budget(retries) + 1
    ensures forall j :: 0 <= j < r.attempts - 1 ==> !IsOk(net(j))
    ensures r.result.Success? ==> IsOk(net(r.attempts - 1)) && r.result.value == net(r.attempts - 1).response
    ensures r.result.Success? ==> r.result.value.Ok()
    ensures r.result.Failure? ==>
              r.attempts == Budget(retries) + 1 && r.result == Attempt(url, net(Budget(retries)))
  {
    var tries := (j: nat) => Attempt(url, net(j));
    var r := RetryFrom(tries, retries, 0);
    forall j | 0 <= j < r.attempts - 1
      ensures !IsOk(net(j))
    {
      assert tries(j).Failure?;
    }
    r
  }

  /** The first `k` calls fail and call `k` is ok, with `k <= retries`: exactly `k + 1` calls, resolving with response `k`. */
  lemma FetchStopsAtFirstOk(url: string, net: Network, retries: int, k: nat)
    requires k <= Budget(retries)
    requires forall j :: 0 <= j < k ==> !IsOk(net(j))
    requires IsOk(net(k))
    ensures FetchAndRetry(url, net, retries) == Attempted(Success(net(k).response), k + 1)
  {
    var tries := (j: nat) => Attempt(url, net(j));
    assert forall j :: 0 <= j < k ==> tries(j).Failure?;
    StopsAtFirstSuccess(tries, retries, 0, k);
  }

  /**
   * Every call fails: exactly `Budget(retries) + 1` calls, rejecting with the last call's error —
   * its network error, or the non-ok message naming the url.
   */
  lemma FetchExhausted(url: string, net: Network, retries: int)
    requires forall j :: 0 <= j <= Budget(retries) ==> !IsOk(net(j))
    ensures FetchAndRetry(url, net, retries).attempts == Budget(retries) + 1
    ensures var last := net(Budget(retries));
            FetchAndRetry(url, net, retries).result ==
              if last.NetworkError? then Failure(last.message) else Failure(FailedFetchMessage(url))
  {
    var tries := (j: nat) => Attempt(url, net(j));
    assert forall j :: 0 <= j <= Budget(retries) ==> tries(j).Failure?;
    ExhaustsBudget(tries, retries);
  }

  /**
   * A non-ok status is retried exactly like a network error: two networks that are ok at the same calls,
   * with the same responses there, lead to the same number of calls and the same success or failure.
   */
  lemma NonOkRetriedLikeNetworkError(url: string, net1: Network, net2: Network, retries: int)
    requires forall j :: IsOk(net1(j)) == IsOk(net2(j))
    requires forall j :: IsOk(net1(j)) ==> net1(j) == net2(j)
    ensures FetchAndRetry(url, net1, retries).attempts == FetchAndRetry(url, net2, retries).attempts
    ensures FetchAndRetry(url, net1, retries).result.Success? == FetchAndRetry(url, net2, retries).result.Success?
    ensures FetchAndRetry(url, net1, retries).result.Success? ==>
              FetchAndRetry(url, net1, retries).result == FetchAndRetry(url, net2, retries).result
  {
    var tries1 := (j: nat) => Attempt(url, net1(j));
    var tries2 := (j: nat) => Attempt(url, net2(j));
    assert forall j :: tries1(j).Success? == IsOk(net1(j));
    assert forall j :: tries2(j).Success? == IsOk(net2(j));
    SameSuccessesRetryAlike(tries1, tries2, retries);
  }

  /** It resolves exactly when one of the first `Budget(retries) + 1` calls is ok. */
  lemma FetchSucceedsIffSomeCallOk(url: string, net: Network, retries: int)
    ensures FetchAndRetry(url, net, retries).result.Success? <==>
            exists j :: 0 <= j <= Budget(retries) && IsOk(net(j))
  {
    var tries := (j: nat) => Attempt(url, net(j));
    SucceedsIffSomeRunSucceeds(tries, retries);
    assert forall j :: tries(j).Success? == IsOk(net(j));
  }

  /** With the default `retries = 3` at most four calls are made, and all four when the first three fail. */
  lemma DefaultRetriesAllowFourAttempts(url: string, net: Network)
    ensures FetchAndRetry(url, net, DefaultRetries).attempts <= 4
    ensures (forall j :: 0 <= j < 3 ==> !IsOk(net(j))) ==> FetchAndRetry(url, net, DefaultRetries).attempts == 4
  {
  }
}

=== FILE: outcomes.dfy ===
/** Optional values and settled promises, shared by every module of the model. */
module Outcomes {

  /** A value that may be missing, as `null` is in the extension's DOM queries. */
  datatype Option<+T> = None | Some(value: T)

  /** How a promise settles: resolved with a value, or rejected with an `Error` whose `message` is kept. */
  datatype Result<+T> = Success(value: T) | Failure(error: string)
}

=== FILE: retry.dfy ===
/**
 * The promise-retry recursion shared by `fetchAndRetry` and `downloadvolumeAndRetry`:
 * run an operation; if it rejects and `retries > 0`, run it again with `retries - 1`;
 * otherwise settle as the last run settled.
 */
module Retry {
  import opened Outcomes

  /** How a retried operation settled, and how many times the underlying operation ran. */
  datatype Attempted<+T> = Attempted(result: Result<T>, attempts: nat)

  /** The number of extra runs a `retries` argument grants: the recursion continues only while `retries > 0`. */
  function Budget(retries: int): (budget: nat) {
    if retries > 0 then retries else 0
  }

  /**
   * The retry recursion, where run number `j` of the operation settles as `tries(j)` and
   * `first` is the number of runs made before this call.
   */
  function RetryFrom<T>(tries: nat -> Result<T>, retries: int, first: nat): (r: Attempted<T>)
    ensures 1 <= r.attempts <= Budget(retries) + 1
    ensures r.result == tries(first + r.attempts - 1)
    ensures forall j :: first <= j < first + r.attempts - 1 ==> tries(j).Failure?
    ensures r.result.Failure? ==> r.attempts == Budget(retries) + 1
    decreases Budget(retries)
  {
    var outcome := tries(first);
    if outcome.Success? then Attempted(outcome, 1)
    else if retries > 0 then
      var rest := RetryFrom(tries, retries - 1, first + 1);
      Attempted(rest.result, rest.attempts + 1)
    else Attempted(outcome, 1)
  }

  /**
   * The `k` runs after `first` fail and the next one succeeds, within budget: exactly `k + 1` runs,
   * settling with the successful one.
   */
  lemma {:induction false} StopsAtFirstSuccess<T>(tries: nat -> Result<T>, retries: int, first: nat, k: nat)
    requires k <= Budget(retries)
    requires forall j :: first <= j < first + k ==> tries(j).Failure?
    requires tries(first + k).Success?
    ensures RetryFrom(tries, retries, first) == Attempted(tries(first + k), k + 1)
    decreases k
  {
    if k > 0 {
      assert tries(first).Failure?;
      StopsAtFirstSuccess(tries, retries - 1, first + 1, k - 1);
    }
  }

  /** Every run within budget fails: exactly `Budget + 1` runs, rejecting with the last one's error. */
  lemma ExhaustsBudget<T>(tries: nat -> Result<T>, retries: int)
    requires forall j :: 0 <= j <= Budget(retries) ==> tries(j).Failure?
    ensures RetryFrom(tries, retries, 0) == Attempted(tries(Budget(retries)), Budget(retries) + 1)
  {
    var r := RetryFrom(tries, retries, 0);
    assert tries(r.attempts - 1).Failure?;
  }

  /** The retry resolves exactly when some run within budget would succeed. */
  lemma SucceedsIffSomeRunSucceeds<T>(tries: nat -> Result<T>, retries: int)
    ensures RetryFrom(tries, retries, 0).result.Success? <==>
            exists j :: 0 <= j <= Budget(retries) && tries(j).Success?
  {
    var r := RetryFrom(tries, retries, 0);
    if r.result.Failure? {
      forall j | 0 <= j <= Budget(retries)
        ensures tries(j).Failure?
      {
        if j < r.attempts - 1 {
        } else {
          assert j == r.attempts - 1;
        }
      }
    } else {
      assert tries(r.attempts - 1).Success?;
    }
  }

  /** Two operations whose runs succeed at the same places, with the same values, retry alike. */
  lemma SameSuccessesRetryAlike<T>(tries1: nat -> Result<T>, tries2: nat -> Result<T>, retries: int)
    requires forall j :: tries1(j).Success? == tries2(j).Success?
    requires forall j :: tries1(j).Success? ==> tries1(j) == tries2(j)
    ensures RetryFrom(tries1, retries, 0).attempts == RetryFrom(tries2, retries, 0).attempts
    ensures RetryFrom(tries1, retries, 0).result.Success? == RetryFrom(tries2, retries, 0).result.Success?
    ensures RetryFrom(tries1, retries, 0).result.Success? ==>
            RetryFrom(tries1, retries, 0).result == RetryFrom(tries2, retries, 0).result
  {
    var r1 := RetryFrom(tries1, retries, 0);
    var r2 := RetryFrom(tries2, retries, 0);
    if r1.result.Success? {
      StopsAtFirstSuccess(tries2, retries, 0, r1.attempts - 1);
    }
  }
}

=== FILE: sequences.dfy ===
/** Sequence helpers: `Array.prototype.reverse` and the null-filter the content manager applies. */
module Sequences {
  import opened Outcomes

  /** The elements of `s` in the opposite order. */
  function Reverse<T>(s: seq<T>): (r: seq<T>)
    ensures |r| == |s|
    ensures forall i :: 0 <= i < |s| ==> r[i] == s[|s| - 1 - i]
  {
    if |s| == 0 then [] else Reverse(s[1..]) + [s[0]]
  }

  /** Reversing twice gives the sequence back. */
  lemma ReverseReverse<T>(s: seq<T>)
    ensures Reverse(Reverse(s)) == s
  {
    var r := Reverse(Reverse(s));
    assert |r| == |s|;
    forall i | 0 <= i < |s|
      ensures r[i] == s[i]
    {
      assert r[i] == Reverse(s)[|s| - 1 - i];
    }
  }

  /** The present attribute values of `xs`, in order (`filter(x => x !== null)`). */
  function Present(xs: seq<Option<string>>): (r: seq<string>)
    ensures |r| <= |xs|
    ensures forall v :: v in r <==> Some(v) in xs
  {
    if |xs| == 0 then []
    else
      var rest := Present(xs[1..]);
      assert forall v :: Some(v) in xs <==> xs[0] == Some(v) || Some(v) in xs[1..];
      match xs[0]
      case None => rest
      case Some(v) => [v] + rest
  }

  /** Filtering distributes over concatenation. */
  lemma {:induction false} PresentAppend(xs: seq<Option<string>>, ys: seq<Option<string>>)
    ensures Present(xs + ys) == Present(xs) + Present(ys)
  {
    if |xs| == 0 {
      assert xs + ys == ys;
    } else {
      assert (xs + ys)[1..] == xs[1..] + ys;
      PresentAppend(xs[1..], ys);
    }
  }

  /** When nothing is missing, filtering keeps every element. */
  lemma {:induction false} PresentAllSome(xs: seq<Option<string>>)
    requires forall i :: 0 <= i < |xs| ==> xs[i].Some?
    ensures |Present(xs)| == |xs|
    ensures forall i :: 0 <= i < |xs| ==> Present(xs)[i] == xs[i].value
  {
    if |xs| > 0 {
      PresentAllSome(xs[1..]);
    }
  }

  /**
   * A left-to-right pass over `xs` that replaces `current` by every element satisfying `p`: the
   * start value when none does, and otherwise the last one that does.
   */
  function LastSatisfying<T(==)>(p: T -> bool, xs: seq<T>, current: T): (w: T)
    ensures w == current || w in xs
    ensures (forall i :: 0 <= i < |xs| ==> !p(xs[i])) ==> w == current
    ensures (exists i :: 0 <= i < |xs| && p(xs[i])) ==>
              exists i :: && 0 <= i < |xs| && xs[i] == w && p(w)
                          && forall j :: i < j < |xs| ==> !p(xs[j])
    decreases |xs|
  {
    if |xs| == 0 then current
    else
      var next := if p(xs[0]) then xs[0] else current;
      var rest := xs[1..];
      var w := LastSatisfying(p, rest, next);
      assert forall i :: 0 <= i < |rest| ==> rest[i] == xs[i + 1];
      if exists i :: 0 <= i < |rest| && p(rest[i]) then
        var i :| && 0 <= i < |rest| && rest[i] == w && p(w)
                 && forall j :: i < j < |rest| ==> !p(rest[j]);
        assert xs[i + 1] == w;
        w
      else
        assert forall j :: 0 < j < |xs| ==> !p(xs[j]);
        w
  }

  /** `xs.map((x, i) => f(i, x))`: element `i` mapped together with its index. */
  function MapIndexed<A, B>(f: (nat, A) -> B, xs: seq<A>): (ys: seq<B>)
    ensures |ys| == |xs|
    ensures forall i :: 0 <= i < |xs| ==> ys[i] == f(i, xs[i])
    decreases |xs|
  {
    if |xs| == 0 then []
    else
      var n := |xs| - 1;
      MapIndexed(f, xs[..n]) + [f(n, xs[n])]
  }
}

=== FILE: strings.dfy ===
/** The `String.prototype` operations the extension relies on, over `seq<char>`. */
module Strings {

  /** `s.startsWith(p)` */
  predicate StartsWith(s: string, p: string) {
    |p| <= |s| && s[..|p|] == p
  }

  /** `s.endsWith(suffix)` */
  predicate EndsWith(s: string, suffix: string) {
    |suffix| <= |s| && s[|s| - |suffix|..] == suffix
  }

  /** `sub` occurs in `s` starting at index `i`. */
  predicate OccursAt(s: string, sub: string, i: nat) {
    i + |sub| <= |s| && s[i..i + |sub|] == sub
  }

  /** `s.includes(sub)`: `sub` occurs somewhere in `s` (the empty string occurs everywhere). */
  predicate Includes(s: string, sub: string)
    decreases |s|
  {
    StartsWith(s, sub) || (|s| > 0 && Includes(s[1..], sub))
  }

  /** `Includes` holds exactly when `sub` occurs at some position of `s`. */
  lemma {:induction false} IncludesIffOccurs(s: string, sub: string)
    ensures Includes(s, sub) <==> exists i: nat :: OccursAt(s, sub, i)
    decreases |s|
  {
    if |s| > 0 {
      IncludesIffOccurs(s[1..], sub);
    }
    if Includes(s, sub) {
      if StartsWith(s, sub) {
        assert OccursAt(s, sub, 0);
      } else {
        var i: nat :| OccursAt(s[1..], sub, i);
        assert s[1..][i..i + |sub|] == s[i + 1..i + 1 + |sub|];
        assert OccursAt(s, sub, i + 1);
      }
    }
    if exists i: nat :: OccursAt(s, sub, i) {
      var i: nat :| OccursAt(s, sub, i);
      if i == 0 {
        assert StartsWith(s, sub);
      } else {
        assert s[1..][i - 1..i - 1 + |sub|] == s[i..i + |sub|];
        assert OccursAt(s[1..], sub, i - 1);
      }
    }
  }

  /** Any occurrence is found by `Includes`. */
  lemma {:induction false} IncludesOccurrence(a: string, sub: string, b: string)
    ensures Includes(a + sub + b, sub)
    decreases |a|
  {
    var s := a + sub + b;
    if |a| == 0 {
      assert s[..|sub|] == sub;
    } else {
      assert s[1..] == a[1..] + sub + b;
      IncludesOccurrence(a[1..], sub, b);
    }
  }

  /** `s.lastIndexOf(c)`: the index of the last `c` in `s`, or -1 when there is none. */
  function LastIndexOf(s: string, c: char): (r: int)
    ensures -1 <= r < |s|
    ensures r >= 0 ==> s[r] == c
    ensures forall k :: r < k < |s| ==> s[k] != c
    decreases |s|
  {
    if |s| == 0 then -1
    else if s[|s| - 1] == c then |s| - 1
    else LastIndexOf(s[..|s| - 1], c)
  }

  /** `s.substring(s.lastIndexOf(c) + 1)`: what follows the last `c`, or all of `s` when `c` does not occur. */
  function AfterLast(s: string, c: char): (r: string)
    ensures c !in r
    ensures EndsWith(s, r)
  {
    var k := LastIndexOf(s, c);
    LastIndexOfFound(s, c);
    var r := s[k + 1..];
    assert c !in r by {
      assert forall j :: 0 <= j < |r| ==> r[j] == s[k + 1 + j];
    }
    r
  }

  /** Without a `c` the whole string is kept; otherwise a `c` immediately precedes the result. */
  lemma AfterLastBoundary(s: string, c: char)
    ensures c !in s ==> AfterLast(s, c) == s
    ensures c in s ==> |AfterLast(s, c)| < |s| && s[|s| - |AfterLast(s, c)| - 1] == c
  {
    LastIndexOfFound(s, c);
  }

  /** `LastIndexOf` finds a `c` exactly when there is one. */
  lemma LastIndexOfFound(s: string, c: char)
    ensures c in s <==> LastIndexOf(s, c) >= 0
  {
    if c in s {
      var j :| 0 <= j < |s| && s[j] == c;
      assert LastIndexOf(s, c) >= j;
    }
  }

  /** The text after the last `c` of `a + [c] + b` is `b` when `b` holds no `c`. */
  lemma AfterLastOfSuffix(a: string, c: char, b: string)
    requires c !in b
    ensures AfterLast(a + [c] + b, c) == b
  {
    var s := a + [c] + b;
    assert s[|a|] == c;
    assert s[|s| - |b|..] == b;
  }

  /** `s.split(sep)` for a one-character separator: the maximal `sep`-free pieces, empty ones included. */
  function Split(s: string, sep: char): (parts: seq<string>)
    ensures |parts| >= 1
    ensures forall i :: 0 <= i < |parts| ==> sep !in parts[i]
    decreases |s|
  {
    if |s| == 0 then [""]
    else if s[0] == sep then [""] + Split(s[1..], sep)
    else
      var rest := Split(s[1..], sep);
      [[s[0]] + rest[0]] + rest[1..]
  }

  /** `parts.join(sep)` */
  function Join(parts: seq<string>, sep: string): (joined: string)
    decreases |parts|
  {
    if |parts| == 0 then ""
    else if |parts| == 1 then parts[0]
    else parts[0] + sep + Join(parts[1..], sep)
  }

  /** A join opens with the first part and closes with the last; joining nothing gives "". */
  lemma {:induction false} JoinEnds(parts: seq<string>, sep: string)
    ensures |parts| == 0 ==> Join(parts, sep) == ""
    ensures |parts| > 0 ==> StartsWith(Join(parts, sep), parts[0])
    ensures |parts| > 0 ==> EndsWith(Join(parts, sep), parts[|parts| - 1])
    decreases |parts|
  {
    if |parts| > 1 {
      var rest := Join(parts[1..], sep);
      var joined := parts[0] + sep + rest;
      assert Join(parts, sep) == joined;
      JoinEnds(parts[1..], sep);
      assert joined[..|parts[0]|] == parts[0];
      assert joined[|joined| - |rest|..] == rest;
      assert parts[1..][|parts| - 2] == parts[|parts| - 1];
    }
  }

  /** Joining the pieces of a split with the separator gives the original string back. */
  lemma {:induction false} JoinSplit(s: string, sep: char)
    ensures Join(Split(s, sep), [sep]) == s
    decreases |s|
  {
    if |s| == 0 {
    } else if s[0] == sep {
      var rest := Split(s[1..], sep);
      JoinSplit(s[1..], sep);
      assert Split(s, sep) == [""] + rest;
      assert ([""] + rest)[1..] == rest;
      assert Join(Split(s, sep), [sep]) == "" + [sep] + Join(rest, [sep]);
    } else {
      var rest := Split(s[1..], sep);
      JoinSplit(s[1..], sep);
      var parts := [[s[0]] + rest[0]] + rest[1..];
      assert Split(s, sep) == parts;
      if |rest| == 1 {
        assert Join(parts, [sep]) == [s[0]] + rest[0];
      } else {
        assert parts[1..] == rest[1..];
        assert Join(rest, [sep]) == rest[0] + [sep] + Join(rest[1..], [sep]);
        assert Join(parts, [sep]) == [s[0]] + rest[0] + [sep] + Join(rest[1..], [sep]);
      }
    }
  }

  /** The last piece of a split is the text after the last separator. */
  lemma SplitLast(s: string, sep: char)
    ensures Split(s, sep)[|Split(s, sep)| - 1] == AfterLast(s, sep)
  {
    JoinSplit(s, sep);
    AfterLastOfJoin(Split(s, sep), sep);
  }

  /** Joining `sep`-free parts with `sep` leaves the last part after the last `sep`. */
  lemma AfterLastOfJoin(parts: seq<string>, sep: char)
    requires |parts| >= 1
    requires forall i :: 0 <= i < |parts| ==> sep !in parts[i]
    ensures AfterLast(Join(parts, [sep]), sep) == parts[|parts| - 1]
  {
    var n := |parts|;
    var last := parts[n - 1];
    assert sep !in last;
    if n == 1 {
      assert Join(parts, [sep]) == last;
      AfterLastBoundary(last, sep);
    } else {
      var front := Join(parts[..n - 1], [sep]);
      assert Join(parts, [sep]) == front + [sep] + last by {
        JoinLast(parts, [sep]);
      }
      AfterLastOfSuffix(front, sep, last);
    }
  }

  /** Joining peels off the last part. */
  lemma {:induction false} JoinLast(parts: seq<string>, sep: string)
    requires |parts| > 1
    ensures Join(parts, sep) == Join(parts[..|parts| - 1], sep) + sep + parts[|parts| - 1]
    decreases |parts|
  {
    var n := |parts|;
    var front := parts[..n - 1];
    if n == 2 {
      assert Join(front, sep) == parts[0];
      assert Join(parts[1..], sep) == parts[1];
    } else {
      var middle := parts[1..][..n - 2];
      assert middle == front[1..];
      assert Join(parts[1..], sep) == Join(middle, sep) + sep + parts[n - 1] by {
        JoinLast(parts[1..], sep);
      }
      var first, rest, last := parts[0], Join(middle, sep), parts[n - 1];
      assert Join(front, sep) == first + sep + rest;
      assert Join(parts, sep) == first + sep + (rest + sep + last);
      assert first + sep + (rest + sep + last) == (first + sep + rest) + sep + last;
    }
  }

  /** Every part occurs in the joined string. */
  lemma {:induction false} JoinIncludesEach(parts: seq<string>, sep: string, i: nat)
    requires i < |parts|
    ensures Includes(Join(parts, sep), parts[i])
    decreases |parts|
  {
    if |parts| == 1 {
      IncludesOccurrence("", parts[0], "");
      assert "" + parts[0] + "" == parts[0];
    } else if i == 0 {
      IncludesOccurrence("", parts[0], sep + Join(parts[1..], sep));
      assert "" + parts[0] + (sep + Join(parts[1..], sep)) == Join(parts, sep);
    } else {
      JoinIncludesEach(parts[1..], sep, i - 1);
      IncludesSuffix(parts[0] + sep, Join(parts[1..], sep), parts[i]);
    }
  }

  /** Whatever a suffix includes, the whole string includes. */
  lemma {:induction false} IncludesSuffix(a: string, b: string, sub: string)
    requires Includes(b, sub)
    ensures Includes(a + b, sub)
    decreases |a|
  {
    if |a| == 0 {
      assert a + b == b;
    } else {
      IncludesSuffix(a[1..], b, sub);
      assert (a + b)[1..] == a[1..] + b;
    }
  }
}

=== FILE: supported_websites.dfy ===
/** The enumerations and the page-status record shared by the extension's scripts. */
module SupportedWebsites {

  /** The sites the extension knows; each case carries the string value of the TypeScript enum. */
  datatype SupportedWebsite = SushiScan | Unsupported {
    /** The enum member's string value. */
    function Value(): (v: string)
      ensures |v| > 0
      ensures v == "sushiscan.net" <==> this == SushiScan
      ensures v == "unsupported" <==> this == Unsupported
    {
      match this
      case SushiScan => "sushiscan.net"
      case Unsupported => "unsupported"
    }
  }

  /** `Object.values(SupportedWebsite)`: the members in declaration order. */
  const AllWebsites: seq<SupportedWebsite> := [SushiScan, Unsupported]

  /** What the content script reports to the popup about the current tab. */
  datatype PageStatus = PageStatus(website: SupportedWebsite, hasDownloadableContent: bool, canDownload: bool)

  /** Whether a page holds one volume's images or a catalogue of volumes. */
  datatype DownloadType = SingleVolume | AllVolumes

  /** The enumeration lists every member exactly once, `SushiScan` first. */
  lemma AllWebsitesEnumeratesEachOnce(w: SupportedWebsite)
    ensures w in AllWebsites
    ensures |AllWebsites| == 2 && AllWebsites[0] == SushiScan && AllWebsites[1] == Unsupported
    ensures AllWebsites[0] != AllWebsites[1]
  {
  }

  /** Distinct members have distinct string values, so a value names its member. */
  lemma ValueInjective(a: SupportedWebsite, b: SupportedWebsite)
    ensures a.Value() == b.Value() <==> a == b
  {
  }
}
